=== FILE: README.md ===
# Social-interaction core of a social-media REST backend, in Dafny

This project models the bespoke logic of a small social-networking API:
creating posts and comments, the feed of posts by followed users, liking
and unliking a post (with the notification a like sends to the post's
author), and the list of a user's unread notifications.

The database becomes one immutable `Schema.Store` value:

- `follows`: a set of pairs `(a, b)`, meaning `a` follows `b`. `Following` and `Followers` are taken to be the two directions of this one directed relation (see "## Left out").
- `posts`, `comments`, `likes`, `notifications`: sequences of rows in primary-key order.
- `nextPostId`, `nextCommentId`: the auto-increment counters.

Each request handler is a pure function from the store, the caller and the
request to a `Result`:

- A write returns `Ok(new store)` or `Err(e)`. An error carries no store, so after a failed request the database is unchanged.
- A query returns `Ok(rows)`. Its result type holds no store, so it cannot change anything; in particular, listing notifications marks none of them read.
- The caller is `Option<UserId>`, where `None` is an anonymous request. Every modelled handler is a write or needs authentication, so the permission check returns `Unauthorized` before the handler runs.
- The clock is a parameter, `now`.

`Schema.Valid` is the store invariant. It holds of the empty store (`Schema.EmptyValid`) and every modelled write preserves it:

- post and comment keys are unique and below their counters;
- there is at most one like row per (user, post);
- likes and notifications point at stored posts.

Unique post keys come from the primary key, and a like's post is a relation to a stored post. No constraint in the code keeps like rows unique per (user, post). Only get-or-create maintains that clause, so it holds here because each request is one atomic step. Like rows are a sequence, not a set, so the
get-or-create semantics of a like is a real property here: "exactly one
row" can be stated and proved.

Two points where this model follows the code:

- **Repeated likes.** A like always appends a notification, even when the like row already existed. There is no branch on "created", so liking twice notifies the author twice (`Interactions.LikeTwiceLeavesOneRow`). This is modelled as written. Whether it is intended is a design question, not a provable defect.
- **Ties in ordering.** `order_by('-created_at')` and `order_by('-timestamp')` give no tie-break, so the feed and the unread list are specified only as non-increasing permutations of the selected rows. `Seqs.SortedPermutationUnique` shows that this pins the order down whenever timestamps are distinct. The functions use a stable insertion sort, which is one admissible order.

The post viewset is defined twice (posts/views.py:12 and :28). Only the second definition is in effect. Both stamp the author in the same way, so one `CreatePost` models both.

## Model

| member | source | states |
|---|---|---|
| Posts.CreatePost | posts/views.py:35-36 | anonymous caller gets Unauthorized; otherwise exactly one post row is appended, with the caller as author, a fresh key, the body's title and content, and `now` as creation time, and nothing else in the store changes |
| Posts.CreatePostIgnoresClaimedAuthor | posts/views.py:35-36 | the stored post is the same whatever author the request body claimed, and its author is the caller |
| Posts.CreateComment | posts/views.py:25-26 | anonymous caller gets Unauthorized; otherwise exactly one comment row is appended, with the caller as author and the body's post and content, and nothing else changes |
| Posts.CreateCommentIgnoresClaimedAuthor | posts/views.py:25-26 | the stored comment is the same whatever author the request body claimed, and its author is the caller |
| Posts.Feed | posts/views.py:41-48 | anonymous caller gets Unauthorized; otherwise the result holds exactly the stored posts whose author the caller follows, each as often as stored, ordered by creation time non-increasing |
| Posts.FeedEmptyWhenFollowingNoOne | posts/views.py:43-44 | a user who follows no one gets an empty feed, not an error |
| Posts.FeedNoDup | posts/views.py:44 | when post keys are unique no post appears twice in a feed |
| Posts.FeedDeterminedByCreationTimes | posts/views.py:44 | with unique post keys and distinct creation times, any newest-first arrangement of the followed authors' posts is exactly the feed |
| Posts.LikePost | posts/views.py:53-64 | anonymous caller gets Unauthorized; a missing post gets NotFound; otherwise (at most one existing row) exactly one (caller, post) like row exists afterwards, other like rows keep their counts, and exactly one unread "liked your post" notification from the caller to the post's author about that post is appended, even if the like already existed; posts, comments and follows are unchanged |
| Posts.UnlikePost | posts/views.py:66-70 | anonymous caller gets Unauthorized; a missing post or a missing like row gets NotFound; success happens exactly when the post and one like row exist, and then that row is gone, every other row keeps its count, and notifications and everything else are unchanged |
| Posts.NoMultipleObjectsOnValid | posts/views.py:55-68 | in a consistent store neither like nor unlike can meet duplicate like rows, so the get-or-create and get-or-404 lookups never find two rows |
| Posts.CreatePostPreservesValid | posts/views.py:35-36 | creating a post keeps keys unique and every like and notification pointing at a stored post |
| Posts.CreateCommentPreservesValid | posts/views.py:25-26 | creating a comment keeps the store invariant |
| Posts.LikePreservesValid | posts/views.py:55-63 | a like keeps at most one row per (user, post), and its row and notification point at a stored post |
| Posts.UnlikePreservesValid | posts/views.py:67-69 | an unlike keeps the store invariant |
| Schema.FindPost | posts/views.py:54 | the lookup by primary key returns a stored post with that key, and returns nothing exactly when no stored post has it |
| Schema.FindPostUnique | posts/views.py:54 | under unique keys the lookup returns the one post with that key |
| Schema.Following | posts/views.py:43 | the followed users are exactly those `u` has a follow pair to |
| Schema.Followers | accounts/serializers.py:9 | the followers of `u` are exactly the users with a follow pair to `u`: the modelled relation read towards `u` |
| Schema.FollowersIsFollowingReversed | accounts/serializers.py:9 | a user is among the followers of `u` exactly when `u` is among the users that user follows; this holds under the model's assumption that `followers` and `following` are the two directions of one relation |
| Schema.ValidLikeCountAtMostOne | posts/views.py:55 | in a consistent store a user has at most one like row per post |
| Seqs.SortDesc | posts/views.py:44 | the ordering step returns a permutation of its input, sorted by the key non-increasingly |
| Seqs.RemoveFirst | posts/views.py:69 | deleting the row removes one occurrence of it and keeps every other row's count |
| Seqs.Filter | posts/views.py:44 | the selection step keeps exactly the rows satisfying the condition, each as often as it occurs |
| Seqs.SortedPermutationUnique | posts/views.py:44 | two non-increasing permutations of the same rows coincide when no two rows share a key: ties are the only freedom the ordering has |
| Notifications.ListUnread | notifications/views.py:9-12 | anonymous caller gets Unauthorized; otherwise the result holds exactly the caller's notifications with `read = false` (each as often as stored, none read, none addressed to anyone else), ordered by timestamp non-increasing |
| Notifications.ListUnreadEmptyWhenAllRead | notifications/views.py:10 | a user with no unread notification addressed to them gets an empty list |
| Notifications.ListUnreadAfterRecord | notifications/views.py:10 | recording one notification changes a user's list only if it is an unread one for them, and then by exactly that notification |
| Notifications.ListUnreadDependsOnNotificationsOnly | notifications/views.py:10 | the list reads only the notifications table: two stores with the same notifications give every user the same list |
| Notifications.ListUnreadDeterminedByTimestamps | notifications/views.py:10 | with distinct timestamps, any newest-first arrangement of the caller's unread notifications, each as often as stored, is exactly the list |
| Interactions.LikeTwiceLeavesOneRow | posts/views.py:53-63 | liking the same post twice leaves exactly one like row, the second like changes no like row, and two notifications were added, both addressed to the post's author |
| Interactions.LikeThenUnlike | posts/views.py:55-69 | an unlike right after a like succeeds, removes the caller's row, keeps every other row's count, and touches no notification; if the post was not liked before, the like table is exactly restored |
| Interactions.UnlikeThenLike | posts/views.py:55-69 | a like right after an unlike succeeds and restores the like table up to row order |
| Interactions.LikeNotifiesAuthor | posts/views.py:57-63 | a like adds exactly its own notification to the post author's unread list and leaves every other user's unread list unchanged |
| Interactions.UnlikeKeepsUnreadLists | posts/views.py:66-70 | an unlike leaves every user's unread list unchanged |
| Interactions.LikesDoNotChangeFeeds | posts/views.py:53-70 | liking and unliking change no one's feed |
| Interactions.CreatePostReachesFollowers | posts/views.py:35-44 | a new post appears in the feed of every follower of its author, as exactly one more entry, and leaves everyone else's feed unchanged |
| Interactions.FeedExample | posts/views.py:41-48 | a user following users 2 and 3 but not 4 sees user 3's later post, then user 2's, and not user 4's |

## Left out

- HTTP, responses and status codes are reduced to a `Result`. Permission classes and `get_object_or_404` become the `Unauthorized` and `NotFound` error values. DRF answers an unauthenticated request with 401 or 403 depending on the authentication scheme; both become `Unauthorized`.
- The search filter over title and content (posts/views.py:32-33) is not modelled. Its matching semantics belong to the framework's search backend.
- The list, retrieve, update and destroy actions that the model viewsets inherit are framework CRUD with no bespoke code. Only `perform_create` is modelled.
- Serializers are not modelled: field mapping, validation errors on malformed bodies, and timestamp formatting (notifications/serializers.py:7). The posts app's serializers are not part of this model.
- Posts.CreateComment: does not check that the parent post exists. That check belongs to the comment serializer's field validation, which is not part of this model.
- Registration is not modelled: password hashing, saving and token issue (accounts/serializers.py:14-24). These are library calls.
- Schema.Followers, Schema.FollowersIsFollowingReversed: the user model that stores `followers` and `following` is not part of this model. The model assumes they are the two directions of one directed relation, so the reversal lemma holds by construction and does not exclude two separately stored fields.
- Follow and unfollow, and marking notifications read, are not modelled. No code for them is shown. The follow relation is an input.
- URL routing (posts/urls.py) is wiring only.
- Concurrency and atomicity are not modelled: the racing get-or-create, and the like plus its notification as one transaction. Every request is one atomic step here. Two racing likes can store two rows for the same (user, post), and such a store is outside `Schema.Valid`. That is why the lookups keep the `MultipleObjectsReturned` outcome.
- The serialized form of the feed and of the notification list is not modelled. The queries return the rows themselves.
- Posts.LikePost, Posts.UnlikePost: a post lookup by primary key returns the first row with that key. Under `Schema.Valid` keys are unique, so this is the only row. Duplicate like rows give `MultipleObjectsReturned`, as the ORM's `get` does, but `Posts.NoMultipleObjectsOnValid` shows that a consistent store never has them.

=== FILE: interactions.dfy ===
/**
 Properties that relate several requests: repeated likes, a like undone by
 an unlike and the reverse, the notification a like leaves in the author's
 unread list, and a new post reaching its author's followers' feeds.
 */
module Interactions {
  import opened Wrappers
  import opened Seqs
  import opened Schema
  import opened Posts
  import opened Notifications

  /**
   Liking the same post twice leaves exactly one like row, the second like
   changes no like row, and each like left its own notification for the
   post's author.
   */
  lemma LikeTwiceLeavesOneRow(s: Store, u: UserId, pid: PostId, t1: Timestamp, t2: Timestamp)
    requires LikePost(s, Some(u), pid, t1).Ok?
    ensures var s1 := LikePost(s, Some(u), pid, t1).value;
            var r2 := LikePost(s1, Some(u), pid, t2);
            && r2.Ok?
            && LikeCount(r2.value, u, pid) == 1
            && r2.value.likes == s1.likes
            && |r2.value.notifications| == |s.notifications| + 2
            && r2.value.notifications[|s.notifications|].recipient == FindPost(s.posts, pid).value.author
            && r2.value.notifications[|s.notifications| + 1].recipient == FindPost(s.posts, pid).value.author
  {
    assert LikePost(s, Some(u), pid, t1).value.posts == s.posts;
  }

  /**
   An unlike right after a like removes the caller's like row again, keeps
   every other row's count, and touches no notification; when the post was
   not liked before, the like table is exactly what it was.
   */
  lemma LikeThenUnlike(s: Store, u: UserId, pid: PostId, now: Timestamp)
    requires LikePost(s, Some(u), pid, now).Ok?
    ensures var s1 := LikePost(s, Some(u), pid, now).value;
            var r2 := UnlikePost(s1, Some(u), pid);
            && r2.Ok?
            && LikeCount(r2.value, u, pid) == 0
            && (forall l :: l != Like(u, pid) ==> multiset(r2.value.likes)[l] == multiset(s.likes)[l])
            && r2.value.notifications == s1.notifications
            && (Like(u, pid) !in s.likes ==> r2.value.likes == s.likes)
  {
    var s1 := LikePost(s, Some(u), pid, now).value;
    assert s1.posts == s.posts;
    if Like(u, pid) !in s.likes {
      RemoveFirstAppended(s.likes, Like(u, pid));
    }
  }

  /** A like right after an unlike restores the like table up to row order. */
  lemma UnlikeThenLike(s: Store, u: UserId, pid: PostId, now: Timestamp)
    requires UnlikePost(s, Some(u), pid).Ok?
    ensures var s1 := UnlikePost(s, Some(u), pid).value;
            var r2 := LikePost(s1, Some(u), pid, now);
            && r2.Ok?
            && multiset(r2.value.likes) == multiset(s.likes)
  {
  }

  /**
   A like adds exactly its own notification to the post author's unread
   list, whether or not the post was already liked, and leaves every other
   user's unread list as it was.
   */
  lemma LikeNotifiesAuthor(s: Store, u: UserId, pid: PostId, now: Timestamp, w: UserId)
    requires LikePost(s, Some(u), pid, now).Ok?
    ensures var s1 := LikePost(s, Some(u), pid, now).value;
            var author := FindPost(s.posts, pid).value.author;
            var n := Notification(author, u, LikedVerb, pid, now, false);
            && (w == author ==>
                  multiset(ListUnread(s1, Some(w)).value) == multiset(ListUnread(s, Some(w)).value) + multiset{n})
            && (w != author ==> ListUnread(s1, Some(w)) == ListUnread(s, Some(w)))
  {
  }

  /** An unlike leaves every user's unread list as it was. */
  lemma UnlikeKeepsUnreadLists(s: Store, u: UserId, pid: PostId, w: UserId)
    requires UnlikePost(s, Some(u), pid).Ok?
    ensures ListUnread(UnlikePost(s, Some(u), pid).value, Some(w)) == ListUnread(s, Some(w))
  {
  }

  /** Liking and unliking change no one's feed. */
  lemma LikesDoNotChangeFeeds(s: Store, u: UserId, pid: PostId, now: Timestamp, w: UserId)
    ensures LikePost(s, Some(u), pid, now).Ok? ==>
              Feed(LikePost(s, Some(u), pid, now).value, Some(w)) == Feed(s, Some(w))
    ensures UnlikePost(s, Some(u), pid).Ok? ==>
              Feed(UnlikePost(s, Some(u), pid).value, Some(w)) == Feed(s, Some(w))
  {
  }

  /**
   A new post reaches the feed of every follower of its author, as exactly
   one more entry, and leaves the feed of everyone else as it was.
   */
  lemma CreatePostReachesFollowers(s: Store, u: UserId, input: PostInput, now: Timestamp, w: UserId)
    ensures var s1 := CreatePost(s, Some(u), input, now).value;
            var p := s1.posts[|s.posts|];
            && ((w, u) in s.follows ==>
                  p in Feed(s1, Some(w)).value
                  && multiset(Feed(s1, Some(w)).value) == multiset(Feed(s, Some(w)).value) + multiset{p})
            && ((w, u) !in s.follows ==> Feed(s1, Some(w)) == Feed(s, Some(w)))
  {
  }

  /**
   An example: user 1 follows users 2 and 3 but not 4; user 2 posts
   at time 1, user 4 at time 2 and user 3 at time 3. User 1's feed is user
   3's post followed by user 2's.
   */
  lemma FeedExample()
    ensures var p2 := Post(1, 2, "a", "x", 1);
            var p4 := Post(2, 4, "b", "y", 2);
            var p3 := Post(3, 3, "c", "z", 3);
            var s := Empty.(follows := {(1, 2), (1, 3)}, posts := [p2, p4, p3], nextPostId := 4);
            Feed(s, Some(1)) == Ok([p3, p2])
  {
    var p2 := Post(1, 2, "a", "x", 1);
    var p4 := Post(2, 4, "b", "y", 2);
    var p3 := Post(3, 3, "c", "z", 3);
    var s := Empty.(follows := {(1, 2), (1, 3)}, posts := [p2, p4, p3], nextPostId := 4);
    var xs := [p3, p2];
    ExampleStoreKeysDistinct(s);
    assert multiset(s.posts) == multiset{p2, p4, p3};
    assert multiset(xs) == multiset{p3, p2};
    FeedDeterminedByCreationTimes(s, 1, xs);
  }

  /** The example store's posts have distinct keys and distinct creation times. */
  lemma ExampleStoreKeysDistinct(s: Store)
    requires s == Empty.(follows := {(1, 2), (1, 3)},
                         posts := [Post(1, 2, "a", "x", 1), Post(2, 4, "b", "y", 2), Post(3, 3, "c", "z", 3)],
                         nextPostId := 4)
    ensures PostIdsDistinct(s.posts)
    ensures KeysDistinct(s.posts, CreatedAt)
  {
  }
}

=== FILE: notifications.dfy ===
/**
 The notifications app's read path: the caller's unread notifications,
 newest first. It is a query; the store is not changed and in particular no
 notification is marked read.
 */
module Notifications {
  import opened Wrappers
  import opened Seqs
  import opened Schema

  /** The time a notification was recorded, the key the list is ordered by. */
  function Stamp(n: Notification): int {
    n.timestamp
  }

  /** A notification the caller `u` has not yet read. */
  predicate UnreadFor(u: UserId, n: Notification) {
    n.recipient == u && !n.read
  }

  /**
   The caller's unread notifications, each as often as it is stored, newest
   first; notifications recorded at the same instant may come in either order.
   */
  function ListUnread(s: Store, caller: Option<UserId>): (r: Result<seq<Notification>, Error>)
    ensures caller.None? ==> r == Err(Unauthorized)
    ensures caller.Some? ==> r.Ok?
    ensures r.Ok? ==> forall n :: n in r.value ==> n.recipient == caller.value && !n.read
    ensures r.Ok? ==> forall n :: n in s.notifications && n.recipient == caller.value && !n.read ==> n in r.value
    ensures r.Ok? ==> forall n :: multiset(r.value)[n] ==
                                  (if n.recipient == caller.value && !n.read then multiset(s.notifications)[n] else 0)
    ensures r.Ok? ==> SortedDesc(r.value, Stamp)
  {
    match caller
    case None => Err(Unauthorized)
    case Some(u) =>
      Ok(SortDesc(Filter(s.notifications, (n: Notification) => UnreadFor(u, n)), Stamp))
  }

  /** A user with no unread notification addressed to them gets an empty list. */
  lemma ListUnreadEmptyWhenAllRead(s: Store, u: UserId)
    requires forall n :: n in s.notifications && n.recipient == u ==> n.read
    ensures ListUnread(s, Some(u)) == Ok([])
  {
  }

  /** The list depends on the notifications table alone. */
  lemma ListUnreadDependsOnNotificationsOnly(s: Store, t: Store, u: UserId)
    requires s.notifications == t.notifications
    ensures ListUnread(s, Some(u)) == ListUnread(t, Some(u))
  {
  }

  /**
   Recording one more notification changes a user's list only if it is an
   unread one for them, and then by exactly that notification.
   */
  lemma ListUnreadAfterRecord(s: Store, n: Notification, u: UserId)
    ensures UnreadFor(u, n) ==>
              multiset(ListUnread(s.(notifications := s.notifications + [n]), Some(u)).value)
              == multiset(ListUnread(s, Some(u)).value) + multiset{n}
    ensures !UnreadFor(u, n) ==>
              ListUnread(s.(notifications := s.notifications + [n]), Some(u)) == ListUnread(s, Some(u))
  {
    FilterAppend(s.notifications, n, (m: Notification) => UnreadFor(u, m));
  }

  /**
   With distinct timestamps, any newest-first arrangement of the caller's
   unread notifications, each as often as stored, is exactly the list.
   */
  lemma ListUnreadDeterminedByTimestamps(s: Store, u: UserId, xs: seq<Notification>)
    requires KeysDistinct(s.notifications, Stamp)
    requires SortedDesc(xs, Stamp)
    requires forall n :: multiset(xs)[n] == (if n.recipient == u && !n.read then multiset(s.notifications)[n] else 0)
    ensures ListUnread(s, Some(u)) == Ok(xs)
  {
    ListUnreadSameRows(s, u, xs);
    ListUnreadKeysDistinct(s, u);
    SortedPermutationUnique(ListUnread(s, Some(u)).value, xs, Stamp);
  }

  /** A sequence holding each unread notification of `u` as often as it is stored is a rearrangement of the list. */
  lemma ListUnreadSameRows(s: Store, u: UserId, xs: seq<Notification>)
    requires forall n :: multiset(xs)[n] == (if n.recipient == u && !n.read then multiset(s.notifications)[n] else 0)
    ensures multiset(ListUnread(s, Some(u)).value) == multiset(xs)
  {
  }

  /** With distinct timestamps, no two positions of the list share a timestamp. */
  lemma ListUnreadKeysDistinct(s: Store, u: UserId)
    requires KeysDistinct(s.notifications, Stamp)
    ensures KeysDistinct(ListUnread(s, Some(u)).value, Stamp)
  {
    var r := ListUnread(s, Some(u)).value;
    KeysDistinctNoDup(s.notifications, Stamp);
    assert multiset(r) <= multiset(s.notifications);
    NoDupSubMultiset(r, s.notifications);
    KeysDistinctSubset(r, s.notifications, Stamp);
  }
}

=== FILE: posts.dfy ===
/**
 The request handlers of the posts app as store transitions and queries:
 creating posts and comments (the author is always the caller), the feed of
 posts by followed users, and liking and unliking a post.

 A caller of `None` is an anonymous request; every handler here needs an
 authenticated caller, so the permission check answers `Unauthorized` before
 the handler runs. A failed request yields no new store: the database after
 it is the one before it.
 */
module Posts {
  import opened Wrappers
  import opened Seqs
  import opened Schema

  /** A create-post request body; `author` is whatever the client claimed, if anything. */
  datatype PostInput = PostInput(author: Option<UserId>, title: string, content: string)

  /** A create-comment request body. */
  datatype CommentInput = CommentInput(author: Option<UserId>, post: PostId, content: string)

  /** Creates a post stamped with the caller as author and `now` as creation time. */
  function CreatePost(s: Store, caller: Option<UserId>, input: PostInput, now: Timestamp): (r: Result<Store, Error>)
    ensures caller.None? ==> r == Err(Unauthorized)
    ensures caller.Some? ==> r.Ok?
    ensures r.Ok? ==>
              var t := r.value;
              && |t.posts| == |s.posts| + 1
              && t.posts[..|s.posts|] == s.posts
              && t.posts[|s.posts|].author == caller.value
              && t.posts[|s.posts|].id == s.nextPostId
              && t.posts[|s.posts|].title == input.title
              && t.posts[|s.posts|].content == input.content
              && t.posts[|s.posts|].createdAt == now
              && t.nextPostId > s.nextPostId
              && t.(posts := s.posts, nextPostId := s.nextPostId) == s
  {
    match caller
    case None => Err(Unauthorized)
    case Some(u) =>
      var p := Post(s.nextPostId, u, input.title, input.content, now);
      Ok(s.(posts := s.posts + [p], nextPostId := s.nextPostId + 1))
  }

  /** Creates a comment stamped with the caller as author. */
  function CreateComment(s: Store, caller: Option<UserId>, input: CommentInput): (r: Result<Store, Error>)
    ensures caller.None? ==> r == Err(Unauthorized)
    ensures caller.Some? ==> r.Ok?
    ensures r.Ok? ==>
              var t := r.value;
              && |t.comments| == |s.comments| + 1
              && t.comments[..|s.comments|] == s.comments
              && t.comments[|s.comments|].author == caller.value
              && t.comments[|s.comments|].id == s.nextCommentId
              && t.comments[|s.comments|].post == input.post
              && t.comments[|s.comments|].content == input.content
              && t.nextCommentId > s.nextCommentId
              && t.(comments := s.comments, nextCommentId := s.nextCommentId) == s
  {
    match caller
    case None => Err(Unauthorized)
    case Some(u) =>
      var c := Comment(s.nextCommentId, u, input.post, input.content);
      Ok(s.(comments := s.comments + [c], nextCommentId := s.nextCommentId + 1))
  }

  /** The creation time, the key the feed is ordered by. */
  function CreatedAt(p: Post): int {
    p.createdAt
  }

  /**
   The caller's feed: every stored post whose author the caller follows, as
   often as it is stored, newest first. Posts created at the same instant may
   come in either order.
   */
  function Feed(s: Store, caller: Option<UserId>): (r: Result<seq<Post>, Error>)
    ensures caller.None? ==> r == Err(Unauthorized)
    ensures caller.Some? ==> r.Ok?
    ensures r.Ok? ==> SortedDesc(r.value, CreatedAt)
    ensures r.Ok? ==> forall p :: p in r.value <==> p in s.posts && p.author in Following(s, caller.value)
    ensures r.Ok? ==> forall p :: multiset(r.value)[p] ==
                                  (if (caller.value, p.author) in s.follows then multiset(s.posts)[p] else 0)
  {
    match caller
    case None => Err(Unauthorized)
    case Some(u) =>
      Ok(SortDesc(Filter(s.posts, (p: Post) => (u, p.author) in s.follows), CreatedAt))
  }

  /**
   Likes a post: the post must exist; the (caller, post) like row is fetched
   or created; and, whether or not the row already existed, one unread
   notification is appended for the post's author.
   */
  function LikePost(s: Store, caller: Option<UserId>, pid: PostId, now: Timestamp): (r: Result<Store, Error>)
    ensures caller.None? ==> r == Err(Unauthorized)
    ensures caller.Some? && !HasPost(s.posts, pid) ==> r == Err(NotFound)
    ensures r.Ok? <==> caller.Some? && HasPost(s.posts, pid) && LikeCount(s, caller.value, pid) <= 1
    ensures r.Ok? ==> LikeCount(r.value, caller.value, pid) == 1
    ensures r.Ok? ==> forall l :: l != Like(caller.value, pid) ==> multiset(r.value.likes)[l] == multiset(s.likes)[l]
    ensures r.Ok? ==>
              var ns := r.value.notifications;
              && |ns| == |s.notifications| + 1
              && ns[..|s.notifications|] == s.notifications
              && ns[|s.notifications|] ==
                 Notification(FindPost(s.posts, pid).value.author, caller.value, LikedVerb, pid, now, false)
    ensures r.Ok? ==> r.value.(likes := s.likes, notifications := s.notifications) == s
  {
    match caller
    case None => Err(Unauthorized)
    case Some(u) =>
      match FindPost(s.posts, pid)
      case None => Err(NotFound)
      case Some(post) =>
        if LikeCount(s, u, pid) > 1 then Err(MultipleObjectsReturned)
        else
          var row := Like(u, pid);
          var likes := if row in s.likes then s.likes else s.likes + [row];
          var n := Notification(post.author, u, LikedVerb, post.id, now, false);
          Ok(s.(likes := likes, notifications := s.notifications + [n]))
  }

  /**
   Unlikes a post: both the post and the caller's like row for it must
   exist; that row is deleted and nothing else changes.
   */
  function UnlikePost(s: Store, caller: Option<UserId>, pid: PostId): (r: Result<Store, Error>)
    ensures caller.None? ==> r == Err(Unauthorized)
    ensures caller.Some? && (!HasPost(s.posts, pid) || LikeCount(s, caller.value, pid) == 0) ==> r == Err(NotFound)
    ensures r.Ok? <==> caller.Some? && HasPost(s.posts, pid) && LikeCount(s, caller.value, pid) == 1
    ensures r.Ok? ==> LikeCount(r.value, caller.value, pid) == 0
    ensures r.Ok? ==> forall l :: l != Like(caller.value, pid) ==> multiset(r.value.likes)[l] == multiset(s.likes)[l]
    ensures r.Ok? ==> |r.value.likes| == |s.likes| - 1
    ensures r.Ok? ==> r.value.(likes := s.likes) == s
  {
    match caller
    case None => Err(Unauthorized)
    case Some(u) =>
      match FindPost(s.posts, pid)
      case None => Err(NotFound)
      case Some(post) =>
        var n := LikeCount(s, u, post.id);
        if n == 0 then Err(NotFound)
        else if n > 1 then Err(MultipleObjectsReturned)
        else Ok(s.(likes := RemoveFirst(s.likes, Like(u, post.id))))
  }

  // ---------------------------------------------------------------------
  // Properties of single operations

  /** The stored author is the caller whatever author the request body named. */
  lemma CreatePostIgnoresClaimedAuthor(s: Store, u: UserId, a: Option<UserId>, b: Option<UserId>,
                                       title: string, content: string, now: Timestamp)
    ensures CreatePost(s, Some(u), PostInput(a, title, content), now)
         == CreatePost(s, Some(u), PostInput(b, title, content), now)
    ensures CreatePost(s, Some(u), PostInput(a, title, content), now).value.posts[|s.posts|].author == u
  {
  }

  /** The stored comment author is the caller whatever author the request body named. */
  lemma CreateCommentIgnoresClaimedAuthor(s: Store, u: UserId, a: Option<UserId>, b: Option<UserId>,
                                          post: PostId, content: string)
    ensures CreateComment(s, Some(u), CommentInput(a, post, content))
         == CreateComment(s, Some(u), CommentInput(b, post, content))
    ensures CreateComment(s, Some(u), CommentInput(a, post, content)).value.comments[|s.comments|].author == u
  {
  }

  /** A user who follows no one has an empty feed, not an error. */
  lemma FeedEmptyWhenFollowingNoOne(s: Store, u: UserId)
    requires Following(s, u) == {}
    ensures Feed(s, Some(u)) == Ok([])
  {
  }

  /** When post keys are unique no post appears twice in a feed. */
  lemma FeedNoDup(s: Store, u: UserId)
    requires PostIdsDistinct(s.posts)
    ensures NoDup(Feed(s, Some(u)).value)
  {
    KeysDistinctNoDup(s.posts, PostKey);
    var r := Feed(s, Some(u)).value;
    assert multiset(r) <= multiset(s.posts);
    NoDupSubMultiset(r, s.posts);
  }

  /**
   The feed is pinned down by its specification alone when creation times
   are distinct: any newest-first arrangement of the followed authors' posts
   is exactly the feed.
   */
  lemma FeedDeterminedByCreationTimes(s: Store, u: UserId, xs: seq<Post>)
    requires PostIdsDistinct(s.posts)
    requires KeysDistinct(s.posts, CreatedAt)
    requires SortedDesc(xs, CreatedAt)
    requires forall p :: multiset(xs)[p] == (if (u, p.author) in s.follows then multiset(s.posts)[p] else 0)
    ensures Feed(s, Some(u)) == Ok(xs)
  {
    FeedSameRows(s, u, xs);
    FeedKeysDistinct(s, u);
    SortedPermutationUnique(Feed(s, Some(u)).value, xs, CreatedAt);
  }

  /** A sequence holding each followed author's post as often as it is stored is a rearrangement of the feed. */
  lemma FeedSameRows(s: Store, u: UserId, xs: seq<Post>)
    requires forall p :: multiset(xs)[p] == (if (u, p.author) in s.follows then multiset(s.posts)[p] else 0)
    ensures multiset(Feed(s, Some(u)).value) == multiset(xs)
  {
  }

  /** With distinct creation times, no two feed positions share a creation time. */
  lemma FeedKeysDistinct(s: Store, u: UserId)
    requires PostIdsDistinct(s.posts)
    requires KeysDistinct(s.posts, CreatedAt)
    ensures KeysDistinct(Feed(s, Some(u)).value, CreatedAt)
  {
    FeedNoDup(s, u);
    KeysDistinctSubset(Feed(s, Some(u)).value, s.posts, CreatedAt);
  }

  /** Each operation keeps the store invariant. */
  lemma CreatePostPreservesValid(s: Store, caller: Option<UserId>, input: PostInput, now: Timestamp)
    requires Valid(s)
    requires CreatePost(s, caller, input, now).Ok?
    ensures Valid(CreatePost(s, caller, input, now).value)
  {
  }

  lemma CreateCommentPreservesValid(s: Store, caller: Option<UserId>, input: CommentInput)
    requires Valid(s)
    requires CreateComment(s, caller, input).Ok?
    ensures Valid(CreateComment(s, caller, input).value)
  {
  }

  lemma LikePreservesValid(s: Store, caller: Option<UserId>, pid: PostId, now: Timestamp)
    requires Valid(s)
    requires LikePost(s, caller, pid, now).Ok?
    ensures Valid(LikePost(s, caller, pid, now).value)
  {
  }

  lemma UnlikePreservesValid(s: Store, caller: Option<UserId>, pid: PostId)
    requires Valid(s)
    requires UnlikePost(s, caller, pid).Ok?
    ensures Valid(UnlikePost(s, caller, pid).value)
  {
    var t := UnlikePost(s, caller, pid).value;
    assert multiset(t.likes) <= multiset(s.likes);
    NoDupSubMultiset(t.likes, s.likes);
    forall l | l in t.likes ensures HasPost(t.posts, l.post) {
      assert l in multiset(t.likes);
      assert l in multiset(s.likes);
    }
  }

  /** In a consistent store neither like nor unlike can meet duplicate like rows. */
  lemma NoMultipleObjectsOnValid(s: Store, caller: Option<UserId>, pid: PostId, now: Timestamp)
    requires Valid(s)
    ensures LikePost(s, caller, pid, now) != Err(MultipleObjectsReturned)
    ensures UnlikePost(s, caller, pid) != Err(MultipleObjectsReturned)
  {
    if caller.Some? {
      ValidLikeCountAtMostOne(s, caller.value, pid);
    }
  }
}

=== FILE: schema.dfy ===
/**
 The data the social-interaction logic reads and writes: users' directed
 follow relation, posts, comments, like rows and notification records, held
 in one immutable store value. The relational database becomes plain
 sequences (tables, in primary-key order) and a set (the follow relation).
 */
module Schema {
  import opened Seqs
  import opened Wrappers

  type UserId = nat
  type PostId = nat
  type CommentId = nat
  /** A clock reading; the model does not interpret it beyond its order. */
  type Timestamp = int

  datatype Post = Post(id: PostId, author: UserId, title: string, content: string, createdAt: Timestamp)

  datatype Comment = Comment(id: CommentId, author: UserId, post: PostId, content: string)

  /** One like row: `user` likes `post`. */
  datatype Like = Like(user: UserId, post: PostId)

  /** An event addressed to `recipient`: `actor` did `verb` to the post `target`. */
  datatype Notification = Notification(
    recipient: UserId,
    actor: UserId,
    verb: string,
    target: PostId,
    timestamp: Timestamp,
    read: bool)

  /**
   The whole persistent state. `follows` holds a pair `(a, b)` when `a`
   follows `b`; the id counters stand for the database's auto-increment
   sequences.
   */
  datatype Store = Store(
    follows: set<(UserId, UserId)>,
    posts: seq<Post>,
    comments: seq<Comment>,
    likes: seq<Like>,
    notifications: seq<Notification>,
    nextPostId: PostId,
    nextCommentId: CommentId)

  /** The error values a request can end in. */
  datatype Error = Unauthorized | NotFound | MultipleObjectsReturned

  /** The verb of the notification a like sends. */
  const LikedVerb: string := "liked your post"

  /** An empty database; auto-increment ids start at 1. */
  const Empty: Store := Store({}, [], [], [], [], 1, 1)

  /** The users `u` follows (the `following` side of the relation). */
  function Following(s: Store, u: UserId): (r: set<UserId>)
    ensures forall v :: v in r <==> (u, v) in s.follows
  {
    set e | e in s.follows && e.0 == u :: e.1
  }

  /** The users following `u` (the `followers` side of the same relation). */
  function Followers(s: Store, u: UserId): (r: set<UserId>)
    ensures forall v :: v in r <==> (v, u) in s.follows
  {
    set e | e in s.follows && e.1 == u :: e.0
  }

  /** `v` is among the followers of `u` exactly when `u` is among the users `v` follows. */
  lemma FollowersIsFollowingReversed(s: Store, u: UserId, v: UserId)
    ensures v in Followers(s, u) <==> u in Following(s, v)
  {
  }

  /** Some stored post has primary key `id`. */
  predicate HasPost(posts: seq<Post>, id: PostId) {
    exists p :: p in posts && p.id == id
  }

  /** The stored post with primary key `id`, if any (the first row with that key). */
  function FindPost(posts: seq<Post>, id: PostId): (r: Option<Post>)
    ensures r.Some? ==> r.value in posts && r.value.id == id
    ensures r.None? <==> !HasPost(posts, id)
  {
    if posts == [] then None
    else if posts[0].id == id then Some(posts[0])
    else
      assert posts == [posts[0]] + posts[1..];
      FindPost(posts[1..], id)
  }

  /** Number of like rows for `user` and `post`. */
  function LikeCount(s: Store, user: UserId, post: PostId): nat {
    multiset(s.likes)[Like(user, post)]
  }

  /** The primary key of a post row. */
  function PostKey(p: Post): int {
    p.id
  }

  /** The primary key of a comment row. */
  function CommentKey(c: Comment): int {
    c.id
  }

  /** Primary keys of a table are pairwise distinct. */
  predicate PostIdsDistinct(posts: seq<Post>) {
    KeysDistinct(posts, PostKey)
  }

  predicate CommentIdsDistinct(comments: seq<Comment>) {
    KeysDistinct(comments, CommentKey)
  }

  /**
   The store invariant: primary keys are unique and below the next
   auto-increment value, there is at most one like row per (user, post), and
   likes and notifications point at stored posts. It holds of the empty store
   (`EmptyValid`) and every modelled write preserves it, each request being
   one atomic step; racing requests can leave a store outside it.
   */
  predicate Valid(s: Store) {
    && PostIdsDistinct(s.posts)
    && (forall p :: p in s.posts ==> p.id < s.nextPostId)
    && CommentIdsDistinct(s.comments)
    && (forall c :: c in s.comments ==> c.id < s.nextCommentId)
    && NoDup(s.likes)
    && (forall l :: l in s.likes ==> HasPost(s.posts, l.post))
    && (forall n :: n in s.notifications ==> HasPost(s.posts, n.target))
  }

  /** Under the key invariant the lookup finds exactly the post with that key. */
  lemma FindPostUnique(posts: seq<Post>, p: Post)
    requires PostIdsDistinct(posts)
    requires p in posts
    ensures FindPost(posts, p.id) == Some(p)
  {
  }

  /** Under the invariant a user has at most one like row per post. */
  lemma ValidLikeCountAtMostOne(s: Store, user: UserId, post: PostId)
    requires Valid(s)
    ensures LikeCount(s, user, post) <= 1
  {
    NoDupMultiset(s.likes);
  }

  lemma EmptyValid()
    ensures Valid(Empty)
  {
  }
}

=== FILE: seqs.dfy ===
/**
 Generic sequence operations the query layer is built from: filtering rows,
 ordering them by a descending key, removing one row, and the facts about
 duplicates and permutations that the store invariants rely on.
 */
module Seqs {

  /** Every element occurs at most once (compared as values). */
  predicate NoDup<T(==)>(xs: seq<T>) {
    forall i, j :: 0 <= i < j < |xs| ==> xs[i] != xs[j]
  }

  /** Ordered by `key`, largest first; equal keys may appear in any order. */
  predicate SortedDesc<T>(xs: seq<T>, key: T -> int) {
    forall i, j :: 0 <= i < j < |xs| ==> key(xs[i]) >= key(xs[j])
  }

  /** The rows of `xs` that satisfy `keep`, each as often as it occurs in `xs`. */
  function Filter<T(!new)>(xs: seq<T>, keep: T -> bool): (r: seq<T>)
    ensures forall x :: multiset(r)[x] == (if keep(x) then multiset(xs)[x] else 0)
    ensures forall x :: x in r <==> x in xs && keep(x)
    ensures |r| <= |xs|
  {
    if xs == [] then []
    else
      var init, last := xs[..|xs| - 1], xs[|xs| - 1];
      assert xs == init + [last];
      if keep(last) then Filter(init, keep) + [last]
      else Filter(init, keep)
  }

  /** Puts `x` into an already ordered sequence, before every element whose key is not larger. */
  function Insert<T(!new)>(x: T, ys: seq<T>, key: T -> int): (r: seq<T>)
    requires SortedDesc(ys, key)
    ensures SortedDesc(r, key)
    ensures multiset(r) == multiset(ys) + multiset{x}
    ensures forall z :: z in r <==> z == x || z in ys
  {
    if ys == [] || key(x) >= key(ys[0]) then
      PrependSorted(x, ys, key);
      [x] + ys
    else
      assert ys == [ys[0]] + ys[1..];
      var rest := Insert(x, ys[1..], key);
      SortedTailBounded(ys, key);
      PrependSorted(ys[0], rest, key);
      [ys[0]] + rest
  }

  /** Every element after the head of an ordered sequence has a key no larger than the head's. */
  lemma SortedTailBounded<T>(ys: seq<T>, key: T -> int)
    requires SortedDesc(ys, key)
    requires ys != []
    ensures forall z :: z in ys[1..] ==> key(z) <= key(ys[0])
  {
  }

  /** An element whose key bounds every key of an ordered sequence can go in front of it. */
  lemma PrependSorted<T>(y: T, rest: seq<T>, key: T -> int)
    requires SortedDesc(rest, key)
    requires forall z :: z in rest ==> key(z) <= key(y)
    ensures SortedDesc([y] + rest, key)
  {
  }

  /** Orders `xs` by `key`, largest first (insertion sort). */
  function SortDesc<T(!new)>(xs: seq<T>, key: T -> int): (r: seq<T>)
    ensures SortedDesc(r, key)
    ensures multiset(r) == multiset(xs)
    ensures forall x :: x in r <==> x in xs
    ensures |r| == |xs|
  {
    if xs == [] then []
    else
      assert xs == [xs[0]] + xs[1..];
      Insert(xs[0], SortDesc(xs[1..], key), key)
  }

  /** Removes the first occurrence of `x`, leaving every other row in place. */
  function RemoveFirst<T(==)>(xs: seq<T>, x: T): (r: seq<T>)
    ensures multiset(r) == multiset(xs) - multiset{x}
    ensures x !in xs ==> r == xs
  {
    if xs == [] then []
    else
      assert xs == [xs[0]] + xs[1..];
      if xs[0] == x then xs[1..]
      else [xs[0]] + RemoveFirst(xs[1..], x)
  }

  /** Filtering a table after appending one row filters the old rows and keeps the new one when it qualifies. */
  lemma FilterAppend<T(!new)>(xs: seq<T>, x: T, keep: T -> bool)
    ensures Filter(xs + [x], keep) == if keep(x) then Filter(xs, keep) + [x] else Filter(xs, keep)
  {
  }

  /** Appending a new row and then removing it gives back the original table. */
  lemma {:induction false} RemoveFirstAppended<T>(xs: seq<T>, x: T)
    requires x !in xs
    ensures RemoveFirst(xs + [x], x) == xs
  {
    if xs == [] {
      assert xs + [x] == [x];
    } else {
      assert (xs + [x])[1..] == xs[1..] + [x];
      RemoveFirstAppended(xs[1..], x);
    }
  }

  /** Having no duplicates is the same as every multiplicity being at most one. */
  lemma {:induction false} NoDupMultiset<T>(xs: seq<T>)
    ensures NoDup(xs) <==> forall x :: multiset(xs)[x] <= 1
  {
    if NoDup(xs) {
      if xs != [] {
        assert xs == [xs[0]] + xs[1..];
        assert NoDup(xs[1..]);
        NoDupMultiset(xs[1..]);
        assert xs[0] !in xs[1..];
      }
    } else {
      var i, j :| 0 <= i < j < |xs| && xs[i] == xs[j];
      assert xs == xs[..j] + xs[j..];
      assert xs[i] in xs[..j];
      assert xs[j] in xs[j..];
      assert multiset(xs)[xs[j]] == multiset(xs[..j])[xs[j]] + multiset(xs[j..])[xs[j]];
    }
  }

  /** A sequence whose rows all occur in a duplicate-free one, at most as often, has no duplicates. */
  lemma NoDupSubMultiset<T>(a: seq<T>, b: seq<T>)
    requires multiset(a) <= multiset(b)
    requires NoDup(b)
    ensures NoDup(a)
  {
    NoDupMultiset(b);
    NoDupMultiset(a);
    assert forall x :: multiset(a)[x] <= multiset(b)[x];
  }

  /** In a non-increasing sequence the first element carries the largest key. */
  lemma SortedHeadIsMax<T>(xs: seq<T>, key: T -> int, y: T)
    requires SortedDesc(xs, key)
    requires y in xs
    ensures key(xs[0]) >= key(y)
  {
  }

  /** No two positions of `xs` carry the same key. */
  predicate KeysDistinct<T>(xs: seq<T>, key: T -> int) {
    forall i, j :: 0 <= i < j < |xs| ==> key(xs[i]) != key(xs[j])
  }

  /** Rows with pairwise distinct keys are pairwise distinct rows. */
  lemma KeysDistinctNoDup<T>(xs: seq<T>, key: T -> int)
    requires KeysDistinct(xs, key)
    ensures NoDup(xs)
  {
  }

  /** Distinct rows drawn from a sequence whose keys are distinct have distinct keys too. */
  lemma KeysDistinctSubset<T>(r: seq<T>, xs: seq<T>, key: T -> int)
    requires NoDup(r)
    requires forall x :: x in r ==> x in xs
    requires KeysDistinct(xs, key)
    ensures KeysDistinct(r, key)
  {
    forall i, j | 0 <= i < j < |r| ensures key(r[i]) != key(r[j]) {
      assert r[i] in xs && r[j] in xs;
      var k :| 0 <= k < |xs| && xs[k] == r[i];
      var l :| 0 <= l < |xs| && xs[l] == r[j];
      assert k != l;
      if k < l {
        assert key(xs[k]) != key(xs[l]);
      } else {
        assert key(xs[l]) != key(xs[k]);
      }
    }
  }

  /**
   Two orderings of the same rows by the same key coincide when no two
   rows share a key: ties are the only freedom a descending sort has.
   */
  lemma {:induction false} SortedPermutationUnique<T>(a: seq<T>, b: seq<T>, key: T -> int)
    requires multiset(a) == multiset(b)
    requires SortedDesc(a, key) && SortedDesc(b, key)
    requires KeysDistinct(a, key)
    ensures a == b
  {
    assert |a| == |multiset(a)| == |b|;
    if a != [] {
      HeadsAgree(a, b, key);
      TailsPermutation(a, b);
      assert SortedDesc(a[1..], key) && SortedDesc(b[1..], key) && KeysDistinct(a[1..], key);
      SortedPermutationUnique(a[1..], b[1..], key);
      assert a == [a[0]] + a[1..];
      assert b == [b[0]] + b[1..];
    }
  }

  /** Two permutations of each other that start with the same row continue as permutations. */
  lemma TailsPermutation<T>(a: seq<T>, b: seq<T>)
    requires multiset(a) == multiset(b)
    requires a != [] && b != [] && a[0] == b[0]
    ensures multiset(a[1..]) == multiset(b[1..])
  {
    assert a == [a[0]] + a[1..];
    assert b == [b[0]] + b[1..];
    assert multiset(a[1..]) == multiset(a) - multiset{a[0]};
    assert multiset(b[1..]) == multiset(b) - multiset{b[0]};
  }

  /** The first rows of two such orderings are the same row. */
  lemma HeadsAgree<T>(a: seq<T>, b: seq<T>, key: T -> int)
    requires multiset(a) == multiset(b)
    requires SortedDesc(a, key) && SortedDesc(b, key)
    requires KeysDistinct(a, key)
    requires a != [] && b != []
    ensures a[0] == b[0]
  {
    assert a[0] in multiset(b);
    assert b[0] in multiset(a);
    SortedHeadIsMax(a, key, b[0]);
    SortedHeadIsMax(b, key, a[0]);
    var k :| 0 <= k < |a| && a[k] == b[0];
    if k > 0 {
      assert key(a[0]) != key(a[k]);
    }
  }
}

=== FILE: wrappers.dfy ===
/** Failure-carrying result types shared by the model's operations. */
module Wrappers {

  /** An optional value: a lookup that may find nothing. */
  datatype Option<+T> = None | Some(value: T)

  /** The outcome of a request: a value on success, an error otherwise. */
  datatype Result<+T, +E> = Ok(value: T) | Err(error: E)
}
